=== FILE: README.md ===
# Seeker after-compile hook — a Dafny model

This project models the decision logic of the Seeker after-compile hook of the
Node.js Cloud Foundry buildpack. After the application is compiled, the hook does the following:

- It optionally prepends a `require` line to the application's entry point.
- It finds the one Seeker service binding in `VCAP_SERVICES`, looking first
  among user-provided services and then among broker-provisioned ones.
- It checks that the binding's credential is complete.
- It fetches the Seeker Node.js agent, either directly or through the sensor
  installer, and unpacks it.
- It patches the entry point again and installs the agent with npm.
- It writes a `profile.d` script that exports the sensor host and port.

The model has these modules:

- `Text`: substring search and ASCII lower-casing.
- `Keyword`: `isSeekerRelated`, the case-insensitive search for `seeker` in a
  service's descriptors. It is proved equal to "the lower-cased descriptor
  contains `seeker`", and its fold over the descriptors is proved to be "some
  descriptor matches".
- `Selection`: the exactly-one rule used by both extractors, on a sequence and
  on a map of sequences. Go visits a map in random order, so the key order is
  a parameter. The result is proved not to depend on that order.
- `Credentials`:
  - the catalog: the raw `VCAP_SERVICES` text and its two JSON decodings;
  - the user-provided extractor, and the broker extractor, which matches a
    binding by its name, label or instance name;
  - the precedence between the two extractors;
  - the validation order of the three mandatory fields.
- `Record`: `readLines`, following `bufio.ScanLines` (split at `\n`, one
  trailing `\r` dropped, empty lines skipped), and `Prepend`, both as written
  and corrected (see Findings).
- `Acquisition`: the two fetch pipelines as state machines over the set of
  paths on disk. The outcome of each step (URL parse, mkdir, HTTP download,
  each `unzip`, the final stat) is an input.
- `Hook`: the orchestrator `AfterCompile`, what it returns, and the effects it
  leaves: the entry file, paths, commands run and profile script. It also
  holds the body of the environment script.
- `Scenarios`: the two end-to-end cases of the hook's test file, replayed on
  the model.

## Model

| member | source | states |
|---|---|---|
| Keyword.IsSeekerRelated | src/nodejs/hooks/seeker.go:343-350 | The fold over the descriptors is true exactly when some descriptor matches the keyword pattern. With no descriptors it is false. |
| Keyword.PatternAtIsLowerOccurrence | src/nodejs/hooks/seeker.go:346 | The character classes `[sS][eE][eE][kK][eE][rR]` match at position i exactly when the lower-cased descriptor has `seeker` at position i. |
| Keyword.MatchFrom | src/nodejs/hooks/seeker.go:346 | The scan from position i succeeds exactly when `seeker` occurs in the lower-cased descriptor at some position at or after i. |
| Keyword.Matches | src/nodejs/hooks/seeker.go:346 | The pattern `.*[sS][eE][eE][kK][eE][rR].*` matches a descriptor exactly when the descriptor, lower-cased character by character in ASCII, contains `seeker`. |
| Text.ContainsFrom | src/nodejs/hooks/seeker.go:315 | The search from i succeeds exactly when the pattern occurs at some position at or after i. |
| Text.Contains | src/nodejs/hooks/seeker.go:315 | `strings.Contains` is true exactly when the pattern occurs somewhere in the text. |
| Text.Lower | src/nodejs/hooks/seeker.go:346 | Lower-casing keeps the length and maps each character through the ASCII lower-case map. |
| Selection.Filter | src/nodejs/hooks/seeker.go:325-329 | The kept elements are as many as the positions that satisfy the predicate, and each one is an element at such a position. |
| Selection.FilterAppend | src/nodejs/hooks/seeker.go:271-282 | Filtering a concatenation gives the concatenation of the filtered parts, as the nested loops append in order. |
| Selection.FilterSingle | src/nodejs/hooks/seeker.go:330-336 | When exactly one position satisfies the predicate, the filtered list is that one element. |
| Selection.SelectOne | src/nodejs/hooks/seeker.go:284-291 | There is a result exactly when one position satisfies the predicate, and the result is the element at that position. Zero matches and several matches both give nothing. |
| Selection.TaggedAdd | src/nodejs/hooks/seeker.go:279 | Appending one new match at a fresh position adds exactly one new (key, position) pair. |
| Selection.TaggedPositionsCard | src/nodejs/hooks/seeker.go:272-280 | Tagging the matching positions of one key's list with that key keeps their number. |
| Selection.PairsOverCons | src/nodejs/hooks/seeker.go:271-282 | Adding one more key to the visited keys adds exactly that key's matching positions to the count of matching pairs. |
| Selection.FlattenCount | src/nodejs/hooks/seeker.go:271-282 | The matches collected over the map in any complete key order are as many as the matching (key, index) pairs. |
| Selection.FlattenMember | src/nodejs/hooks/seeker.go:271-282 | Every match collected over the map is the service at some matching (key, index) pair. |
| Selection.SelectOneOverMap | src/nodejs/hooks/seeker.go:271-291 | In any key order, exactly-one selection over the map succeeds exactly when one (key, index) pair matches, and it yields that pair's service. |
| Credentials.Select | src/nodejs/hooks/seeker.go:284-291 | With one matching service the result is its credential. With zero or several matches it is the zero credential. |
| Credentials.ExtractUserProvided | src/nodejs/hooks/seeker.go:294-342 | If the raw text lacks `user-provided`, the result is the zero credential, without decoding. A decode failure gives the `Failed to unmarshal VCAP_SERVICES: ` error. Otherwise a unique related user-provided service gives its credential, and any other count gives zero. |
| Credentials.ExtractBroker | src/nodejs/hooks/seeker.go:249-292 | A decode failure gives the `Failed to unmarshal VCAP_SERVICES:` error. Otherwise a unique related (key, index) pair, judged by name, label or instance name, gives that service's credential, and any other count gives zero. |
| Credentials.BrokerOrderIrrelevant | src/nodejs/hooks/seeker.go:271-282 | The broker extractor's result does not depend on the order in which the map's keys are visited. |
| Credentials.Resolve | src/nodejs/hooks/seeker.go:61-72 | A user-provided decode failure is returned, and the broker extractor is not consulted. A non-zero user-provided credential is returned as is. When the user-provided extractor gives the zero credential (no marker, or no unique match), the result is exactly the broker extractor's, error or credential. Any non-zero success comes from a unique user-provided match or a unique broker match. |
| Credentials.Validate | src/nodejs/hooks/seeker.go:119-131 | The result is none exactly when all three fields are non-empty. Otherwise it reports the first empty field in the order port, host, server URL, and every earlier field is non-empty. The zero credential is reported as missing `sensor_port`. |
| Record.DropCR | src/nodejs/hooks/seeker.go:393-398 | One trailing `\r` is removed and nothing else: a token ending in `\r` is the result followed by `\r`, and any other token is unchanged. |
| Record.NewlineIndex | src/nodejs/hooks/seeker.go:393-398 | The split point is the first `\n`, or the end of the text when there is none. |
| Record.ReadLines | src/nodejs/hooks/seeker.go:382-401 | Every line read is non-empty and contains no `\n`. |
| Record.TerminatedCons | src/nodejs/hooks/seeker.go:420-426 | Writing a line followed by lines gives the line, a `\n`, and then the rest written. |
| Record.NewlineIndexOfLine | src/nodejs/hooks/seeker.go:393-398 | In a line followed by `\n`, the scanner splits exactly after the line. |
| Record.ReadLinesCons | src/nodejs/hooks/seeker.go:393-398 | A clean line followed by `\n` and more text reads as that line and then the rest. |
| Record.DropCRAfter | src/nodejs/hooks/seeker.go:393-398 | A token followed by one `\r` loses exactly that `\r`. |
| Record.ReadLinesCRLF | src/nodejs/hooks/seeker.go:393-398 | A clean line ended by `\r\n` reads as the line without the `\r`, and reading goes on after the `\n`. |
| Record.ReadLastLine | src/nodejs/hooks/seeker.go:393-398 | A clean line with no `\n` after it is still read as one line. |
| Record.ReadTerminated | src/nodejs/hooks/seeker.go:382-433 | Clean lines written one per line read back as the same lines. |
| Record.ReadLinesBlank | src/nodejs/hooks/seeker.go:395 | A leading empty line contributes nothing to what is read. |
| Record.ReadAfterBlanks | src/nodejs/hooks/seeker.go:395 | A text that starts with n empty lines reads exactly as the text after them. |
| Record.Overwrite | src/nodejs/hooks/seeker.go:413-431 | Writing from offset 0 without truncation leaves a text as long as the longer of the two. The new text is its prefix, and the old bytes past the new text's end survive. |
| Record.PrependAsWritten | src/nodejs/hooks/seeker.go:403-433 | A missing file, an unreadable file and an unwritable file give their three errors, in that order. An existing readable and writable file always succeeds. On success, the content starts with the rendered new text, its length is the longer of the old and new texts, the old characters past the new text's end survive, and the access flags are unchanged. |
| Record.Prepend | src/nodejs/hooks/seeker.go:403-433 | The same error cases as the code as written, and an existing readable and writable file always succeeds. On success, the content is exactly the new line followed by the non-empty original lines, one per line. |
| Record.PrependReadsBack | src/nodejs/hooks/seeker.go:403-433 | With clean lines, the patched file reads back as the new line followed by the original lines. |
| Record.PrependTwice | src/nodejs/hooks/seeker.go:403-433 | Prepending twice succeeds and reads back as the line twice, followed by the original lines. Prepend is not idempotent. |
| Record.AsWrittenAgreesWhenGrowing | src/nodejs/hooks/seeker.go:413-431 | When the new text is at least as long as the old one, the code as written and the truncating write agree. |
| Record.ReadAb | src/nodejs/hooks/seeker.go:393-398 | `ab\n` reads as the single line `ab`. |
| Record.ReadBlankHeavy | src/nodejs/hooks/seeker.go:382-401 | The counterexample file, four empty lines and then `ab`, reads as the single line `ab`. |
| Record.RenderOnBlankHeavy | src/nodejs/hooks/seeker.go:419-426 | The text rewritten for that file is `X\nab\n`, which is shorter than the file. |
| Record.OverwriteBlankHeavy | src/nodejs/hooks/seeker.go:413-431 | Writing that text in place leaves `X\nab\nb\n`. |
| Record.ReadStaleTail | src/nodejs/hooks/seeker.go:382-401 | That content reads as `X`, `ab`, `b`. |
| Record.AsWrittenOnBlankHeavy | src/nodejs/hooks/seeker.go:403-433 | On the counterexample file, the code as written yields `X\nab\nb\n` and keeps the file's flags. |
| Record.TruncatingOnBlankHeavy | src/nodejs/hooks/seeker.go:403-433 | On the counterexample file, the truncating write yields exactly `X\nab\n`. |
| Record.ReadFixed | src/nodejs/hooks/seeker.go:382-401 | The corrected content reads as `X`, `ab`. |
| Record.StaleTailCounterexample | src/nodejs/hooks/seeker.go:413 | On the counterexample file, the code as written leaves the stale line `b` behind. The truncating version reads back as exactly `X`, `ab`. |
| Acquisition.RemoveAll | src/nodejs/hooks/seeker.go:162 | Removing the temp folder removes it and every path below it (every path with the folder and `/` as prefix), and nothing else. |
| Acquisition.DownloadFile | src/nodejs/hooks/seeker.go:133-151 | The download fails unless the status is 2xx and the copy completes. A rejected status leaves the disk unchanged and reports the status. Success adds exactly the destination file. |
| Acquisition.RunExtractions | src/nodejs/hooks/seeker.go:178-189 | The run succeeds exactly when every step exits 0, and it then has run every command and left every product. The commands run are always the first steps' commands, in order. Every step before the last one run exited 0, and a failed run ends with the failing step, so nothing after it runs. The paths only grow, and only by what the steps produced. |
| Acquisition.Extractions | src/nodejs/hooks/seeker.go:177-226 | The direct pipeline runs one `unzip` and the sensor pipeline two. The first unpacks the mode's archive, into the temp folder for the sensor installer. The second opens `SeekerInstaller.jar` in that folder and extracts `inline/agents/nodejs/*` from it, flattened with `-j`. The last one always extracts into the temp directory, and each step's outcome is the corresponding input. |
| Acquisition.ExtractionsFacts | src/nodejs/hooks/seeker.go:177-226 | The modes' extraction steps produce the mode's extracted paths, and they all exit 0 exactly when the mode's unzips succeed. |
| Acquisition.LibraryIsNotScratch | src/nodejs/hooks/seeker.go:160-161 | The agent tarball path is neither the temp folder nor the mode's archive, so the library is not mistaken for either. |
| Acquisition.Conclude | src/nodejs/hooks/seeker.go:177-232 | After a download, the pipeline succeeds exactly when the unzips succeed and the library is then present (or the stat fault hides its absence). A missing library gives `Could not find <lib>`. The extractions only add paths, and only extracted ones. On success they have added all of them. The commands run are the first of the mode's unzip commands, in order. Every one before the last exited 0, and an unzip failure ends with the failing unzip, so a failed first unzip stops the second. |
| Acquisition.Fetch | src/nodejs/hooks/seeker.go:164-195 | With the stale files gone, the run succeeds exactly when mkdir, the download and every unzip succeed and the library is then present (or the stat fault hides its absence). On success the disk holds exactly the old paths plus the temp folder, the archive and the extracted paths. After mkdir the temp folder exists, and the library is only on disk if an extraction produced it. A failed mkdir or download runs no command. Otherwise the commands run are the first of the mode's unzips, in order, and every one before the last exited 0. |
| Acquisition.Acquire | src/nodejs/hooks/seeker.go:152-233 | The pipeline succeeds exactly when the URL parses, mkdir succeeds, the download succeeds, every unzip exits 0, and the library exists afterwards (or the stat fault hides its absence). On success it returns the library path and has run exactly the mode's unzip commands. It never runs anything but `unzip`. A stale library never survives a failed download. A non-2xx status is reported as such, and a missing library as not found. An unparsable URL leaves the disk unchanged. After mkdir the temp folder exists, and on success every extracted path is on disk. Otherwise the paths left are at most the old ones with the temp folder's contents and the library removed, plus the temp folder, the archive and the extracted paths. An unparsable URL, a failed mkdir or a failed download runs no command. Otherwise the commands run are the first of the mode's unzips, in order, and every one before the last exited 0. |
| Hook.EnvScriptBody | src/nodejs/hooks/seeker.go:242-247 | For single-line host and port values, the profile script, a blank line and then the two exports, reads as exactly the host export followed by the port export. |
| Hook.BlankThenTwoLines | src/nodejs/hooks/seeker.go:244 | A blank line followed by two clean lines separated by `\n`, with no final `\n`, reads as those two lines. |
| Hook.ExportIsClean | src/nodejs/hooks/seeker.go:244 | Each export line, a prefix ending in `=` followed by a single-line value, is a clean line. |
| Hook.Provision | src/nodejs/hooks/seeker.go:81-104 | The mode is direct exactly when the direct-download variable is set. The profile script is written exactly when acquisition succeeds, and otherwise the acquisition error is returned. The script-write error is returned with its prefix. On success the commands are the unzips followed by `npm install --save <lib>`. The entry point is patched a second time. |
| Hook.PatchEntryPoint | src/nodejs/hooks/seeker.go:108-118 | With no entry point configured the file is left alone. Otherwise the patch succeeds exactly when the file exists and is readable and writable. The patched file is the require line followed by the file's non-empty lines, and a missing file is reported as not found. |
| Hook.Proceed | src/nodejs/hooks/seeker.go:61-104 | After the first patch: an extraction error is swallowed, and a validation failure is returned with its first missing field. The agent is fetched exactly when the credential resolves and is valid. Once fetched, the script is written exactly when acquisition succeeds, and the verdict is then Completed or the prefixed script-write error. Otherwise the acquisition error is returned, and the commands are exactly those the failed acquisition ran. The paths are those acquisition left, and the entry file is patched again only on success. |
| Hook.AfterCompile | src/nodejs/hooks/seeker.go:45-107 | A failed first patch is swallowed, and the entry file is left unchanged. An extraction error is swallowed. A validation failure is returned with its field. The agent is fetched exactly when validation passes, and otherwise nothing is fetched, run or written. A second patch never fails once the first succeeded. The script carries the resolved credential. Completion means the script was written, and npm install ran whenever the script was written. Once fetched, the script is written exactly when acquisition succeeds, and the verdict is then Completed, or the script-write error with the `Error creating seeker-env.sh script: ` prefix. The paths on disk are those the acquisition left, and on success the commands are exactly the mode's unzips followed by `npm install --save <lib>`. Otherwise the acquisition error is returned, and the commands are exactly those the failed acquisition ran. After a swallowed extraction error, a validation failure or an acquisition failure, the entry file is the once-patched file. |
| Hook.NpmOutcomeIgnored | src/nodejs/hooks/seeker.go:94-97 | The hook's run is the same whether `npm install` succeeded or failed. |
| Hook.EntryPatchedTwice | src/nodejs/hooks/seeker.go:54-93 | With an entry point and a successful acquisition, the entry file reads back as the require line twice, followed by its original lines. |
| Scenarios.HookCompletes | src/nodejs/hooks/seeker.go:61-104 | With no entry point, a resolved valid credential and a successful acquisition, the hook completes and writes the script for that credential. |
| Scenarios.UserProvidedResolves | src/nodejs/hooks/seeker_test.go:88-123 | The test's user-provided catalog resolves to `localhost`, `9911`, `http://10.120.8.113:8082`. |
| Scenarios.BrokerResolves | src/nodejs/hooks/seeker_test.go:124-165 | The test's broker catalog resolves to the Seeker binding's credential in either key order, and the `mysql` binding is ignored. |
| Scenarios.UserProvidedCase | src/nodejs/hooks/seeker_test.go:88-123 | For the user-provided test case, the hook completes and writes the expected host and port exports. |
| Scenarios.BrokerCase | src/nodejs/hooks/seeker_test.go:124-165 | For the broker test case, the hook completes and writes the expected host and port exports, in either key order. |

## Left out

- The HTTP transport, including the process-wide `InsecureSkipVerify` switch for `https` URLs. A download is an outcome given as input: a transport error, or a status with a write outcome.
- How `url.Parse` and `path.Join` build the download URLs (the paths `rest/ui/installers/binaries/LINUX` and `/rest/ui/installers/agents/binaries/NODEJS`). Only whether the server URL parses is an input.
- The streaming in `writeToFile`. A create failure leaves nothing, and a copy failure leaves a partial file.
- The JSON decoding of `VCAP_SERVICES`. The catalog carries the raw text and the two decodings, each either malformed or the decoded value. The broker map's key visiting order is a parameter, because Go randomises it.
- What `unzip` and `npm` really do. Each unzip is given its exit status and the paths it produces. The commands are recorded with their arguments.
- What `npm install` does. Its success is an input of the world, and `Hook.NpmOutcomeIgnored` shows the run does not depend on it, as the code ignores the error.
- Logging, the `init` registration and `os.TempDir`. The temp directory is a parameter.
- Acquisition.RemoveAll: the error of `os.RemoveAll(seekerTempFolder)` is ignored by the code, and the model assumes the removal succeeds. So the bound on the paths `Acquisition.Acquire` leaves holds only when the stale temp folder could be removed completely.
- The final `os.Remove(seekerTempFolder)`. It fails on a non-empty directory and its error is ignored. The removal of the old library is assumed to succeed.
- `filepath.Join` cleaning. Paths are joined with `/` and assumed clean.
- The 64 KiB token limit of `bufio.Scanner`, and the second `os.Stat` inside `readLines`. Files are text in memory with read and write permission flags.
- Flush and disk-full faults while writing the entry point. So once the first patch succeeded, the second patch cannot fail in the model.
- The text of the validation error (``mandatory `<field>` is missing in Seeker service configuration``). The model reports which field is missing.
- Hook.PatchEntryPoint: patches through the truncating `Record.Prepend` (see Findings), not the overwrite of the code as written. When the rewritten text is shorter than the file, the code as written leaves stale bytes that this member does not show. `Hook.Provision` and `Hook.Proceed` patch through it too.
- Hook.AfterCompile: the orchestrator uses the truncating `Record.Prepend` (see Findings), not the overwrite of the code as written. With the code as written, the entry file after the second patch can carry stale bytes.
- Hook.EntryPatchedTwice: holds for the truncating patch the model uses. With the code as written, a first rewrite that is shorter than the file leaves stale lines that the second patch reads back (see Findings). `Record.AsWrittenAgreesWhenGrowing` gives when the two agree.
- Record.Overwrite: the file content is modelled as characters, not bytes. The surviving tail is exact only for files whose characters are one byte each (ASCII).
- Record.PrependAsWritten: the same character-for-byte reading as `Record.Overwrite`. The stale tail it states is exact only for ASCII files.
- Acquisition.Acquire: acquisition errors are structured values, not Go error strings. Only the `Could not find` path and the rejected status are kept verbatim.

## Findings

| source | as written | input that shows it | evidently intended | confidence | as-written member | corrected member |
|---|---|---|---|---|---|---|
| src/nodejs/hooks/seeker.go:413 | `Prepend` reopens the file with `os.O_WRONLY` and no `os.O_TRUNC`. When the rewritten text is shorter than the old file, the old bytes past its end stay in the file. This happens because `readLines` drops empty lines and trailing `\r`. | File `"\n\n\n\nab\n"` with line `X`. The result is `"X\nab\nb\n"`, which reads as `X`, `ab`, `b`. | The file becomes the new line followed by the original non-empty lines: `"X\nab\n"`. | high, not executed | Record.StaleTailCounterexample | Record.Prepend |

=== FILE: acquisition.dfy ===
/** `fetchSeekerAgentTarballWithinSensor` and
    `fetchSeekerAgentTarballDirectDownload`: the two agent acquisition
    pipelines, as a state machine over the set of paths that exist. Every I/O
    step (URL parsing, directory creation, the HTTP download, each `unzip` run,
    the final `stat`) is an input outcome. */
module Acquisition {
  import opened Wrappers

  type Path = string

  /** Direct download of the agent archive, or extraction from the sensor
      installer. */
  datatype Mode = Direct | WithinSensor

  function Join(dir: Path, name: string): Path {
    dir + "/" + name
  }

  function TempFolder(tempDir: Path): Path {
    Join(tempDir, "seeker_tmp")
  }

  /** The fixed place where both pipelines expect the agent tarball. */
  function LibraryPath(tempDir: Path): Path {
    Join(tempDir, "seeker-agent.tgz")
  }

  /** Where the downloaded archive is saved inside the temp folder. */
  function ArchivePath(mode: Mode, tempDir: Path): Path {
    Join(TempFolder(tempDir), if mode == Direct then "seeker-node-agent.zip" else "SensorInstaller.zip")
  }

  /** `downloadFile` accepts only a 2xx status. */
  predicate StatusOk(status: int) {
    200 <= status <= 299
  }

  /** How writing the response body to disk went: the file could not be
      created, or it was created and the copy broke off. */
  datatype WriteOutcome = Written | CreateFailed | CopyFailed

  datatype DownloadOutcome = TransportError | Response(status: int, write: WriteOutcome)

  /** One `unzip` run: its exit status and the paths it left on disk. */
  datatype Unzip = Unzip(exitOk: bool, produced: set<Path>)

  datatype Command = Command(program: string, args: seq<string>)

  /** The outcomes of every I/O step of one acquisition run. `secondUnzip` is
      only used in `WithinSensor` mode; `statFault` stands for a `stat` error
      other than "does not exist". */
  datatype AcquireEnv = AcquireEnv(
    tempDir: Path,
    urlParses: bool,
    mkdirOk: bool,
    download: DownloadOutcome,
    firstUnzip: Unzip,
    secondUnzip: Unzip,
    statFault: bool)

  datatype AcquireError =
    | UrlInvalid
    | MkdirFailed
    | TransportFailed
    | StatusRejected(status: int)
    | WriteFailed
    | UnzipFailed
    | NotFound(path: Path)

  datatype AcquireRun = AcquireRun(result: Result<Path, AcquireError>, paths: set<Path>, commands: seq<Command>)

  predicate DownloadSucceeds(o: DownloadOutcome) {
    o.Response? && StatusOk(o.status) && o.write == Written
  }

  /** `os.RemoveAll(dir)`: `dir` and everything below it disappear. */
  function RemoveAll(paths: set<Path>, dir: Path): (r: set<Path>)
    ensures r <= paths && dir !in r
    ensures forall p :: p in r ==> !(|dir| + 1 <= |p| && p[..|dir| + 1] == dir + "/")
    ensures forall p :: p in paths && p != dir && !(|dir| + 1 <= |p| && p[..|dir| + 1] == dir + "/") ==> p in r
  {
    set p | p in paths && p != dir && !(|dir| + 1 <= |p| && p[..|dir| + 1] == dir + "/")
  }

  /** `downloadFile(url, dest)`: a rejected status writes nothing; a write
      failure after the file was created leaves a truncated file behind. */
  function DownloadFile(paths: set<Path>, dest: Path, o: DownloadOutcome): (r: (set<Path>, Option<AcquireError>))
    ensures r.1.None? <==> DownloadSucceeds(o)
    ensures r.1.None? ==> r.0 == paths + {dest}
    ensures o.Response? && !StatusOk(o.status) ==> r == (paths, Some(StatusRejected(o.status)))
    ensures r.0 <= paths + {dest}
  {
    match o
    case TransportError => (paths, Some(TransportFailed))
    case Response(status, write) =>
      if status < 200 || status > 299 then (paths, Some(StatusRejected(status)))
      else match write
        case Written => (paths + {dest}, None)
        case CreateFailed => (paths, Some(WriteFailed))
        case CopyFailed => (paths + {dest}, Some(WriteFailed))
  }

  /** One extraction step: the command line and what running it did. */
  datatype Extraction = Extraction(command: Command, outcome: Unzip)

  function Produced(steps: seq<Extraction>): set<Path> {
    if |steps| == 0 then {} else steps[0].outcome.produced + Produced(steps[1..])
  }

  function Commands(steps: seq<Extraction>): (r: seq<Command>)
    ensures |r| == |steps|
  {
    if |steps| == 0 then [] else [steps[0].command] + Commands(steps[1..])
  }

  /** The command list holds each step's command at the step's position. */
  lemma {:induction false} CommandsIndex(steps: seq<Extraction>)
    ensures forall k :: 0 <= k < |steps| ==> Commands(steps)[k] == steps[k].command
  {
    if |steps| > 0 {
      CommandsIndex(steps[1..]);
      assert forall k :: 1 <= k < |steps| ==> steps[k] == steps[1..][k - 1];
    }
  }

  datatype ExtractRun = ExtractRun(ok: bool, paths: set<Path>, commands: seq<Command>)

  /** Runs the extraction steps in order and stops at the first non-zero exit;
      the files a failing run produced stay on disk. */
  function RunExtractions(paths: set<Path>, steps: seq<Extraction>): (r: ExtractRun)
    decreases |steps|
    ensures r.ok <==> forall i :: 0 <= i < |steps| ==> steps[i].outcome.exitOk
    ensures r.ok ==> r.paths == paths + Produced(steps) && r.commands == Commands(steps)
    ensures paths <= r.paths <= paths + Produced(steps)
    ensures |r.commands| <= |steps| && forall k :: 0 <= k < |r.commands| ==> r.commands[k] == steps[k].command
    ensures forall k :: 0 <= k < |r.commands| - 1 ==> steps[k].outcome.exitOk
    ensures !r.ok ==> |r.commands| > 0 && !steps[|r.commands| - 1].outcome.exitOk
  {
    if |steps| == 0 then ExtractRun(true, paths, [])
    else
      var s, tail := steps[0], steps[1..];
      var after := paths + s.outcome.produced;
      if !s.outcome.exitOk then
        ExtractRun(false, after, [s.command])
      else
        var rest := RunExtractions(after, tail);
        assert steps == [s] + tail;
        ExtractRun(rest.ok, rest.paths, [s.command] + rest.commands)
  }

  /** Commands that match the steps' commands index by index are a prefix of
      the steps' command list. */
  lemma CommandsPrefix(steps: seq<Extraction>, run: seq<Command>)
    requires |run| <= |steps| && forall k :: 0 <= k < |run| ==> run[k] == steps[k].command
    ensures run == Commands(steps)[..|run|]
  {
    CommandsIndex(steps);
  }

  /** The `unzip` invocations of each mode, with their outcomes. */
  function Extractions(mode: Mode, env: AcquireEnv): (r: seq<Extraction>)
    ensures |r| == (if mode == Direct then 1 else 2)
    ensures forall k :: 0 <= k < |r| ==> r[k].command.program == "unzip"
    ensures |r[0].command.args| == 3 && r[0].command.args[0] == ArchivePath(mode, env.tempDir)
    ensures r[0].outcome == env.firstUnzip
    ensures var last := r[|r| - 1].command.args;
      |last| >= 2 && last[|last| - 2..] == ["-d", env.tempDir]
    ensures mode == WithinSensor ==>
      && r[0].command.args[1..] == ["-d", TempFolder(env.tempDir)]
      && Join(TempFolder(env.tempDir), "SeekerInstaller.jar") in r[1].command.args
      && |r[1].command.args| == 5
      && r[1].command.args[..3] == ["-j", Join(TempFolder(env.tempDir), "SeekerInstaller.jar"), "inline/agents/nodejs/*"]
      && r[1].outcome == env.secondUnzip
  {
    var tmp := TempFolder(env.tempDir);
    var archive := ArchivePath(mode, env.tempDir);
    match mode
    case Direct =>
      [Extraction(Command("unzip", [archive, "-d", env.tempDir]), env.firstUnzip)]
    case WithinSensor =>
      [Extraction(Command("unzip", [archive, "-d", tmp]), env.firstUnzip),
       Extraction(Command("unzip", ["-j", Join(tmp, "SeekerInstaller.jar"), "inline/agents/nodejs/*", "-d", env.tempDir]),
                  env.secondUnzip)]
  }

  /** Every `unzip` of the mode exits with status zero. */
  predicate ExtractionsSucceed(mode: Mode, env: AcquireEnv) {
    env.firstUnzip.exitOk && (mode == WithinSensor ==> env.secondUnzip.exitOk)
  }

  /** The paths the extractions of the mode leave on disk. */
  function ExtractedPaths(mode: Mode, env: AcquireEnv): set<Path> {
    env.firstUnzip.produced + (if mode == WithinSensor then env.secondUnzip.produced else {})
  }

  lemma ExtractionsFacts(mode: Mode, env: AcquireEnv)
    ensures Produced(Extractions(mode, env)) == ExtractedPaths(mode, env)
    ensures (forall i :: 0 <= i < |Extractions(mode, env)| ==> Extractions(mode, env)[i].outcome.exitOk)
            <==> ExtractionsSucceed(mode, env)
  {
    var steps := Extractions(mode, env);
    assert Produced(steps[|steps|..]) == {};
    if mode == WithinSensor {
      assert steps[1..][1..] == [];
    }
  }

  lemma LibraryIsNotScratch(mode: Mode, tempDir: Path)
    ensures LibraryPath(tempDir) != TempFolder(tempDir)
    ensures LibraryPath(tempDir) != ArchivePath(mode, tempDir)
  {
    assert |LibraryPath(tempDir)| != |TempFolder(tempDir)|;
    assert |LibraryPath(tempDir)| != |ArchivePath(mode, tempDir)|;
  }

  /** The common tail of both pipelines: run the extractions, then check that
      the library exists. */
  function Conclude(mode: Mode, env: AcquireEnv, downloaded: set<Path>): (run: AcquireRun)
    requires LibraryPath(env.tempDir) !in downloaded
    ensures run.result.Success? <==>
      ExtractionsSucceed(mode, env) && (LibraryPath(env.tempDir) in ExtractedPaths(mode, env) || env.statFault)
    ensures run.result.Success? ==> run.result.value == LibraryPath(env.tempDir)
    ensures run.result.Success? ==> run.commands == Commands(Extractions(mode, env))
    ensures LibraryPath(env.tempDir) in run.paths ==> LibraryPath(env.tempDir) in ExtractedPaths(mode, env)
    ensures (ExtractionsSucceed(mode, env) && LibraryPath(env.tempDir) !in ExtractedPaths(mode, env) &&
             !env.statFault) ==> run.result == Failure(NotFound(LibraryPath(env.tempDir)))
    ensures forall k :: 0 <= k < |run.commands| ==> run.commands[k].program == "unzip"
    ensures downloaded <= run.paths <= downloaded + ExtractedPaths(mode, env)
    ensures run.result.Success? ==> run.paths == downloaded + ExtractedPaths(mode, env)
    ensures |run.commands| <= |Extractions(mode, env)| &&
            run.commands == Commands(Extractions(mode, env))[..|run.commands|]
    ensures forall k :: 0 <= k < |run.commands| - 1 ==> Extractions(mode, env)[k].outcome.exitOk
    ensures run.result == Failure(UnzipFailed) ==>
      |run.commands| > 0 && !Extractions(mode, env)[|run.commands| - 1].outcome.exitOk
  {
    var lib := LibraryPath(env.tempDir);
    ExtractionsFacts(mode, env);
    var ex := RunExtractions(downloaded, Extractions(mode, env));
    CommandsPrefix(Extractions(mode, env), ex.commands);
    if !ex.ok then AcquireRun(Failure(UnzipFailed), ex.paths, ex.commands)
    else if lib !in ex.paths && !env.statFault then AcquireRun(Failure(NotFound(lib)), ex.paths, ex.commands)
    else AcquireRun(Success(lib), ex.paths, ex.commands)
  }

  /** The part of a run after the stale files are gone: create the temp
      folder, download the archive into it, then extract and check. */
  function Fetch(mode: Mode, env: AcquireEnv, cleared: set<Path>): (run: AcquireRun)
    requires LibraryPath(env.tempDir) !in cleared
    ensures run.result.Success? <==>
      && env.mkdirOk && DownloadSucceeds(env.download) && ExtractionsSucceed(mode, env)
      && (LibraryPath(env.tempDir) in ExtractedPaths(mode, env) || env.statFault)
    ensures run.result.Success? ==>
      && run.result.value == LibraryPath(env.tempDir)
      && run.commands == Commands(Extractions(mode, env))
      && run.paths == cleared + {TempFolder(env.tempDir), ArchivePath(mode, env.tempDir)} + ExtractedPaths(mode, env)
    ensures LibraryPath(env.tempDir) in run.paths ==> LibraryPath(env.tempDir) in ExtractedPaths(mode, env)
    ensures !DownloadSucceeds(env.download) ==> LibraryPath(env.tempDir) !in run.paths
    ensures env.mkdirOk && env.download.Response? && !StatusOk(env.download.status) ==>
      run.result == Failure(StatusRejected(env.download.status))
    ensures (env.mkdirOk && DownloadSucceeds(env.download) && ExtractionsSucceed(mode, env) &&
             LibraryPath(env.tempDir) !in ExtractedPaths(mode, env) && !env.statFault) ==>
      run.result == Failure(NotFound(LibraryPath(env.tempDir)))
    ensures forall k :: 0 <= k < |run.commands| ==> run.commands[k].program == "unzip"
    ensures env.mkdirOk ==> TempFolder(env.tempDir) in run.paths
    ensures run.paths <= cleared + {TempFolder(env.tempDir), ArchivePath(mode, env.tempDir)} + ExtractedPaths(mode, env)
    ensures |run.commands| <= |Extractions(mode, env)| &&
            run.commands == Commands(Extractions(mode, env))[..|run.commands|]
    ensures forall k :: 0 <= k < |run.commands| - 1 ==> Extractions(mode, env)[k].outcome.exitOk
    ensures !(env.mkdirOk && DownloadSucceeds(env.download)) ==> run.commands == []
  {
    var tmp, archive := TempFolder(env.tempDir), ArchivePath(mode, env.tempDir);
    LibraryIsNotScratch(mode, env.tempDir);
    if !env.mkdirOk then AcquireRun(Failure(MkdirFailed), cleared, [])
    else
      var (downloaded, err) := DownloadFile(cleared + {tmp}, archive, env.download);
      if err.Some? then AcquireRun(Failure(err.value), downloaded, [])
      else Conclude(mode, env, downloaded)
  }

  /** One acquisition run in the given mode, starting from the paths that
      exist. The stale temp folder and library are removed before anything is
      fetched, so only a fresh extraction can make the library exist. */
  function Acquire(mode: Mode, env: AcquireEnv, paths: set<Path>): (run: AcquireRun)
    ensures run.result.Success? <==>
      && env.urlParses && env.mkdirOk && DownloadSucceeds(env.download)
      && ExtractionsSucceed(mode, env)
      && (LibraryPath(env.tempDir) in ExtractedPaths(mode, env) || env.statFault)
    ensures run.result.Success? ==> run.result.value == LibraryPath(env.tempDir)
    ensures run.result.Success? ==> run.commands == Commands(Extractions(mode, env))
    ensures LibraryPath(env.tempDir) in run.paths ==>
      !env.urlParses || LibraryPath(env.tempDir) in ExtractedPaths(mode, env)
    ensures env.urlParses && !DownloadSucceeds(env.download) ==> LibraryPath(env.tempDir) !in run.paths
    ensures env.urlParses && env.mkdirOk && env.download.Response? && !StatusOk(env.download.status) ==>
      run.result == Failure(StatusRejected(env.download.status))
    ensures (env.urlParses && env.mkdirOk && DownloadSucceeds(env.download) && ExtractionsSucceed(mode, env) &&
             LibraryPath(env.tempDir) !in ExtractedPaths(mode, env) && !env.statFault) ==>
      run.result == Failure(NotFound(LibraryPath(env.tempDir)))
    ensures forall k :: 0 <= k < |run.commands| ==> run.commands[k].program == "unzip"
    ensures !env.urlParses ==> run.paths == paths
    ensures run.result.Success? ==> ExtractedPaths(mode, env) <= run.paths
    ensures env.urlParses && env.mkdirOk ==> TempFolder(env.tempDir) in run.paths
    ensures env.urlParses ==>
      run.paths <= (RemoveAll(paths, TempFolder(env.tempDir)) - {LibraryPath(env.tempDir)}) +
                   {TempFolder(env.tempDir), ArchivePath(mode, env.tempDir)} + ExtractedPaths(mode, env)
    ensures |run.commands| <= |Extractions(mode, env)| &&
            run.commands == Commands(Extractions(mode, env))[..|run.commands|]
    ensures forall k :: 0 <= k < |run.commands| - 1 ==> Extractions(mode, env)[k].outcome.exitOk
    ensures !(env.urlParses && env.mkdirOk && DownloadSucceeds(env.download)) ==> run.commands == []
  {
    if !env.urlParses then AcquireRun(Failure(UrlInvalid), paths, [])
    else Fetch(mode, env, RemoveAll(paths, TempFolder(env.tempDir)) - {LibraryPath(env.tempDir)})
  }
}

=== FILE: credentials.dfy ===
/** The credential resolver: the two extractors over the service catalog
    (`VCAP_SERVICES`), the precedence between them, and the validation of the
    resolved credential. JSON decoding itself is not modelled: a catalog holds
    the raw text together with its two decodings, each either `Malformed` or the
    decoded value. */
module Credentials {
  import opened Wrappers
  import Text
  import Keyword
  import Selection

  /** `SeekerCredentials`; the all-empty value `Zero` means "not found". */
  datatype SeekerCredentials = SeekerCredentials(
    sensorHost: string,
    sensorPort: string,
    enterpriseServerUrl: string)

  const Zero: SeekerCredentials := SeekerCredentials("", "", "")

  /** One service binding of the catalog: the three descriptors the keyword is
      matched against, and its `credentials` object. */
  datatype Service = Service(
    name: string,
    serviceLabel: string,
    instanceName: string,
    credentials: SeekerCredentials)

  /** The outcome of `json.Unmarshal` into one of the two catalog shapes. */
  datatype Decoded<T> = Malformed | Decoded(value: T)

  /** The catalog as seen by both extractors. `userProvided` is the list under
      the `user-provided` key (empty when the key is absent); `broker` is the
      whole document read as a map from service-type key to bindings;
      `keyOrder` is the order in which the Go runtime happens to iterate over
      that map's keys. */
  datatype Catalog = Catalog(
    raw: string,
    userProvided: Decoded<seq<Service>>,
    broker: Decoded<map<string, seq<Service>>>,
    keyOrder: seq<string>)

  datatype ExtractError = UnmarshalFailed(message: string)

  const UserProvidedMarker: string := "user-provided"
  const BrokerUnmarshalMessage: string := "Failed to unmarshal VCAP_SERVICES:"
  const UserProvidedUnmarshalMessage: string := "Failed to unmarshal VCAP_SERVICES: "

  /** Map iteration always visits every key once. */
  predicate WellFormed(c: Catalog) {
    c.broker.Decoded? ==> Selection.KeyOrder(c.broker.value, c.keyOrder)
  }

  /** Both extractors test name, label and instance name against the keyword. */
  predicate Related(s: Service) {
    Keyword.IsSeekerRelated([s.name, s.serviceLabel, s.instanceName])
  }

  /** The match set of a list of bindings, as positions. */
  function MatchIndices(ss: seq<Service>): set<int> {
    Selection.Positions(ss, Related)
  }

  /** The match set of the broker-provisioned catalog as (key, position) pairs,
      independent of any iteration order. */
  function MatchSet(m: map<string, seq<Service>>): set<(string, int)> {
    Selection.PairsOver(m, m.Keys, Related)
  }

  /** The credential of the only matching binding, or `Zero` when no binding or
      several bindings match. */
  function Select(ss: seq<Service>): (r: SeekerCredentials)
    ensures |MatchIndices(ss)| != 1 ==> r == Zero
    ensures |MatchIndices(ss)| == 1 ==>
      exists i :: MatchIndices(ss) == {i} && r == ss[i].credentials
  {
    match Selection.SelectOne(ss, Related)
    case Some(s) => s.credentials
    case None => Zero
  }

  /** `extractServiceCredentialsUserProvidedService`. */
  function ExtractUserProvided(c: Catalog): (r: Result<SeekerCredentials, ExtractError>)
    ensures !Text.Contains(c.raw, UserProvidedMarker) ==> r == Success(Zero)
    ensures Text.Contains(c.raw, UserProvidedMarker) && c.userProvided.Malformed? ==>
      r == Failure(UnmarshalFailed(UserProvidedUnmarshalMessage))
    ensures (Text.Contains(c.raw, UserProvidedMarker) && c.userProvided.Decoded? &&
             |MatchIndices(c.userProvided.value)| != 1) ==> r == Success(Zero)
    ensures (Text.Contains(c.raw, UserProvidedMarker) && c.userProvided.Decoded? &&
             |MatchIndices(c.userProvided.value)| == 1) ==>
      exists i :: MatchIndices(c.userProvided.value) == {i} &&
        r == Success(c.userProvided.value[i].credentials)
  {
    if !Text.Contains(c.raw, UserProvidedMarker) then Success(Zero)
    else match c.userProvided
      case Malformed => Failure(UnmarshalFailed(UserProvidedUnmarshalMessage))
      case Decoded(ss) => Success(Select(ss))
  }

  /** `extractServiceCredentials`: the exactly-one rule over every binding of
      every key of the map, visited in the runtime's key order. */
  function ExtractBroker(c: Catalog): (r: Result<SeekerCredentials, ExtractError>)
    requires WellFormed(c)
    ensures c.broker.Malformed? ==> r == Failure(UnmarshalFailed(BrokerUnmarshalMessage))
    ensures c.broker.Decoded? && |MatchSet(c.broker.value)| != 1 ==> r == Success(Zero)
    ensures c.broker.Decoded? && |MatchSet(c.broker.value)| == 1 ==>
      exists k, j :: MatchSet(c.broker.value) == {(k, j)} &&
        r == Success(c.broker.value[k][j].credentials)
  {
    match c.broker
    case Malformed => Failure(UnmarshalFailed(BrokerUnmarshalMessage))
    case Decoded(m) =>
      Selection.SelectOneOverMap(m, c.keyOrder, Related);
      Success(Select(Selection.Flatten(m, c.keyOrder)))
  }

  /** The broker result does not depend on the order in which the map is
      iterated. */
  lemma BrokerOrderIrrelevant(c: Catalog, order: seq<string>)
    requires WellFormed(c) && c.broker.Decoded? && Selection.KeyOrder(c.broker.value, order)
    ensures ExtractBroker(c) == ExtractBroker(c.(keyOrder := order))
  {
    var m := c.broker.value;
    Selection.SelectOneOverMap(m, c.keyOrder, Related);
    Selection.SelectOneOverMap(m, order, Related);
  }

  /** Source precedence in `AfterCompile`: the user-provided result, unless it
      failed or is the zero value, in which case the broker result. */
  function Resolve(c: Catalog): (r: Result<SeekerCredentials, ExtractError>)
    requires WellFormed(c)
    ensures !Text.Contains(c.raw, UserProvidedMarker) ==> r == ExtractBroker(c)
    ensures Text.Contains(c.raw, UserProvidedMarker) && c.userProvided.Malformed? ==>
      r == Failure(UnmarshalFailed(UserProvidedUnmarshalMessage))
    ensures Text.Contains(c.raw, UserProvidedMarker) && c.userProvided.Decoded? ==>
      forall i :: (MatchIndices(c.userProvided.value) == {i} &&
                   c.userProvided.value[i].credentials != Zero) ==>
        r == Success(c.userProvided.value[i].credentials)
    ensures ExtractUserProvided(c).Failure? ==> r == ExtractUserProvided(c)
    ensures ExtractUserProvided(c).Success? && ExtractUserProvided(c).value != Zero ==> r == ExtractUserProvided(c)
    ensures ExtractUserProvided(c) == Success(Zero) ==> r == ExtractBroker(c)
    ensures r.Success? && r.value != Zero ==>
      (exists i :: c.userProvided.Decoded? && MatchIndices(c.userProvided.value) == {i} &&
         r.value == c.userProvided.value[i].credentials) ||
      (exists k, j :: c.broker.Decoded? && MatchSet(c.broker.value) == {(k, j)} &&
         r.value == c.broker.value[k][j].credentials)
  {
    var up := ExtractUserProvided(c);
    if up.Failure? then up
    else if up.value != Zero then up
    else ExtractBroker(c)
  }

  /** The three mandatory fields, in the order they are checked. */
  datatype Field = SensorPort | SensorHost | EnterpriseServerUrl

  function FieldValue(c: SeekerCredentials, f: Field): string {
    match f
    case SensorPort => c.sensorPort
    case SensorHost => c.sensorHost
    case EnterpriseServerUrl => c.enterpriseServerUrl
  }

  /** Position of a field in the checking order. */
  function Rank(f: Field): nat {
    match f
    case SensorPort => 0
    case SensorHost => 1
    case EnterpriseServerUrl => 2
  }

  /** `assertServiceCredentialsValid`: `None` when all three fields are set,
      otherwise the first empty field in the order port, host, URL. */
  function Validate(c: SeekerCredentials): (r: Option<Field>)
    ensures r.None? <==> forall f: Field :: FieldValue(c, f) != ""
    ensures r.Some? ==> FieldValue(c, r.value) == ""
    ensures r.Some? ==> forall f: Field :: Rank(f) < Rank(r.value) ==> FieldValue(c, f) != ""
    ensures c == Zero ==> r == Some(SensorPort)
  {
    if c.sensorPort == "" then
      assert FieldValue(c, SensorPort) == "";
      Some(SensorPort)
    else if c.sensorHost == "" then
      assert FieldValue(c, SensorHost) == "";
      Some(SensorHost)
    else if c.enterpriseServerUrl == "" then
      assert FieldValue(c, EnterpriseServerUrl) == "";
      Some(EnterpriseServerUrl)
    else None
  }
}

=== FILE: hook.dfy ===
/** `SeekerAfterCompileHook.AfterCompile`: the orchestrator, as a function from
    the environment values and the outcomes of its collaborators to the value
    it returns and the effects it leaves behind. */
module Hook {
  import opened Wrappers
  import C = Credentials
  import R = Record
  import A = Acquisition

  /** The line prepended to the application's entry point. */
  const SeekerRequireCode: string := "require('@synopsys-sig/seeker-inline');"

  const EnvScriptName: string := "seeker-env.sh"
  const ScriptErrorPrefix: string := "Error creating seeker-env.sh script: "

  const HostExport: string := "export SEEKER_SENSOR_HOST="
  const PortExport: string := "export SEEKER_SENSOR_HTTP_PORT="

  /** `createSeekerEnvironmentScript`: the profile script exports the sensor
      host and port; read line by line it holds exactly the two exports, host
      first, whenever both values stay on one line. */
  function EnvScriptBody(c: C.SeekerCredentials): (r: string)
    ensures LineSafe(c.sensorHost) && LineSafe(c.sensorPort) ==>
      R.ReadLines(r) == [HostExport + c.sensorHost, PortExport + c.sensorPort]
  {
    var hostLine, portLine := HostExport + c.sensorHost, PortExport + c.sensorPort;
    var body := "\n" + (hostLine + "\n" + portLine);
    if LineSafe(c.sensorHost) && LineSafe(c.sensorPort) then
      ExportIsClean(HostExport, c.sensorHost);
      ExportIsClean(PortExport, c.sensorPort);
      BlankThenTwoLines(hostLine, portLine);
      body
    else body
  }

  /** A value that stays on its own line when read back. */
  predicate LineSafe(v: string) {
    '\n' !in v && (v == "" || v[|v| - 1] != '\r')
  }

  /** A blank line followed by two clean lines reads back as those two lines. */
  lemma BlankThenTwoLines(l1: string, l2: string)
    requires R.CleanLine(l1) && R.CleanLine(l2)
    ensures R.ReadLines("\n" + (l1 + "\n" + l2)) == [l1, l2]
  {
    R.ReadLinesBlank(l1 + "\n" + l2);
    R.ReadLinesCons(l1, l2);
    R.ReadLastLine(l2);
  }

  /** An export line: a clean prefix ending in '=' followed by a value that
      stays on its line. */
  lemma ExportIsClean(prefix: string, v: string)
    requires prefix == HostExport || prefix == PortExport
    requires LineSafe(v)
    ensures R.CleanLine(prefix + v)
  {
    var l := prefix + v;
    assert '\n' !in prefix && prefix[|prefix| - 1] == '=';
    if v == "" {
      assert l == prefix;
    } else {
      assert l[|l| - 1] == v[|v| - 1];
    }
    assert forall j :: 0 <= j < |l| ==> l[j] == (if j < |prefix| then prefix[j] else v[j - |prefix|]);
  }

  /** The environment variables the hook reads: `SEEKER_APP_ENTRY_POINT`,
      `SEEKER_AGENT_DIRECT_DOWNLOAD` and the decoded `VCAP_SERVICES`. */
  datatype Env = Env(entryPointPath: string, directDownload: string, catalog: C.Catalog)

  /** The state and collaborator outcomes the hook runs against: the entry
      point file (`None` when it does not exist), the paths that exist, the
      outcomes of the acquisition steps, of `npm install` and of
      `WriteProfileD` (the error it returns, if any). */
  datatype World = World(
    entryFile: Option<R.EntryFile>,
    paths: set<A.Path>,
    acquire: A.AcquireEnv,
    npmOk: bool,
    profileWriteError: Option<string>)

  datatype HookError =
    | Invalid(field: C.Field)
    | Acquisition(cause: A.AcquireError)
    | PatchFailed(reason: R.PrependError)
    | ScriptWrite(message: string)

  /** Why the hook gave up early while still returning nil. */
  datatype Cause = FirstPatch(reason: R.PrependError) | Extraction(error: C.ExtractError)

  datatype Verdict = Completed | Swallowed(cause: Cause) | Returned(error: HookError)

  /** What one run leaves behind: the verdict, the entry point file, the paths
      on disk, the pipeline it used, the commands it ran (the `unzip`s and
      `npm install`), and the profile script it handed to `WriteProfileD`. */
  datatype HookRun = HookRun(
    verdict: Verdict,
    entryFile: Option<R.EntryFile>,
    paths: set<A.Path>,
    fetched: Option<A.Mode>,
    commands: seq<A.Command>,
    profileScript: Option<(string, string)>)

  function NpmInstall(library: A.Path): A.Command {
    A.Command("npm", ["install", "--save", library])
  }

  /** `addSeekerAgentRequire` when an entry point is configured: the file is
      left alone without one, and otherwise patched whenever it exists and can
      be read and written. */
  function PatchEntryPoint(env: Env, file: Option<R.EntryFile>): (r: Result<Option<R.EntryFile>, R.PrependError>)
    ensures env.entryPointPath == "" ==> r == Success(file)
    ensures env.entryPointPath != "" ==>
      (r.Success? <==> file.Some? && file.value.readable && file.value.writable)
    ensures env.entryPointPath != "" && r.Success? ==>
      r.value.Some? && r.value.value.content == R.Render(SeekerRequireCode, R.ReadLines(file.value.content))
    ensures r.Failure? ==> (r.error == R.TargetNotFound <==> file.None?)
  {
    if env.entryPointPath == "" then Success(file)
    else match R.Prepend(file, SeekerRequireCode)
      case Success(f) => Success(Some(f))
      case Failure(e) => Failure(e)
  }

  predicate FirstPatchFails(env: Env, w: World) {
    env.entryPointPath != "" && R.Prepend(w.entryFile, SeekerRequireCode).Failure?
  }

  /** The steps after validation: acquire, patch again, install, write the
      profile script. */
  function Provision(env: Env, w: World, file: Option<R.EntryFile>, creds: C.SeekerCredentials): (run: HookRun)
    requires env.entryPointPath != "" ==> file.Some? && file.value.readable && file.value.writable
    ensures run.fetched.Some?
    ensures run.fetched.value == A.Direct <==> env.directDownload != ""
    ensures !(run.verdict.Returned? && run.verdict.error.PatchFailed?)
    ensures run.verdict.Swallowed? == false
    ensures run.profileScript.Some? <==> A.Acquire(run.fetched.value, w.acquire, w.paths).result.Success?
    ensures run.profileScript.Some? ==> run.profileScript.value == (EnvScriptName, EnvScriptBody(creds))
    ensures run.profileScript.None? ==>
      run.verdict == Returned(Acquisition(A.Acquire(run.fetched.value, w.acquire, w.paths).result.error))
    ensures run.profileScript.Some? ==>
      run.verdict == (if w.profileWriteError.Some?
                      then Returned(ScriptWrite(ScriptErrorPrefix + w.profileWriteError.value))
                      else Completed)
    ensures run.profileScript.Some? ==>
      run.commands == A.Commands(A.Extractions(run.fetched.value, w.acquire)) +
                      [NpmInstall(A.LibraryPath(w.acquire.tempDir))]
    ensures run.paths == A.Acquire(run.fetched.value, w.acquire, w.paths).paths
    ensures run.profileScript.Some? ==>
      PatchEntryPoint(env, file).Success? && run.entryFile == PatchEntryPoint(env, file).value
    ensures run.profileScript.None? ==>
      run.entryFile == file && run.commands == A.Acquire(run.fetched.value, w.acquire, w.paths).commands
  {
    var mode := if env.directDownload != "" then A.Direct else A.WithinSensor;
    var acq := A.Acquire(mode, w.acquire, w.paths);
    if acq.result.Failure? then
      HookRun(Returned(Acquisition(acq.result.error)), file, acq.paths, Some(mode), acq.commands, None)
    else match PatchEntryPoint(env, file)
      case Failure(e) =>
        HookRun(Returned(PatchFailed(e)), file, acq.paths, Some(mode), acq.commands, None)
      case Success(patched) =>
        var verdict := if w.profileWriteError.Some?
          then Returned(ScriptWrite(ScriptErrorPrefix + w.profileWriteError.value))
          else Completed;
        HookRun(verdict, patched, acq.paths, Some(mode), acq.commands + [NpmInstall(acq.result.value)],
                Some((EnvScriptName, EnvScriptBody(creds))))
  }

  /** The rest of `AfterCompile` once the first patch is done: resolve and
      validate the credential, then provision the agent. */
  function Proceed(env: Env, w: World, file: Option<R.EntryFile>): (run: HookRun)
    requires C.WellFormed(env.catalog)
    requires env.entryPointPath != "" ==> file.Some? && file.value.readable && file.value.writable
    ensures run.verdict.Swallowed? <==> C.Resolve(env.catalog).Failure?
    ensures run.verdict.Swallowed? ==> run.verdict.cause.Extraction?
    ensures run.verdict.Returned? && run.verdict.error.Invalid? <==>
      C.Resolve(env.catalog).Success? && C.Validate(C.Resolve(env.catalog).value).Some?
    ensures run.verdict.Returned? && run.verdict.error.Invalid? ==>
      run.verdict.error.field == C.Validate(C.Resolve(env.catalog).value).value
    ensures run.fetched.Some? <==>
      C.Resolve(env.catalog).Success? && C.Validate(C.Resolve(env.catalog).value).None?
    ensures run.fetched.Some? ==> (run.fetched.value == A.Direct <==> env.directDownload != "")
    ensures run.fetched.None? ==>
      run.paths == w.paths && run.commands == [] && run.profileScript.None? && run.entryFile == file
    ensures !(run.verdict.Returned? && run.verdict.error.PatchFailed?)
    ensures run.fetched.Some? ==>
      && (run.profileScript.Some? <==> A.Acquire(run.fetched.value, w.acquire, w.paths).result.Success?)
      && run.paths == A.Acquire(run.fetched.value, w.acquire, w.paths).paths
    ensures run.fetched.Some? && run.profileScript.None? ==>
      && run.verdict == Returned(Acquisition(A.Acquire(run.fetched.value, w.acquire, w.paths).result.error))
      && run.commands == A.Acquire(run.fetched.value, w.acquire, w.paths).commands
      && run.entryFile == file
    ensures run.profileScript.Some? ==>
      && run.profileScript.value == (EnvScriptName, EnvScriptBody(C.Resolve(env.catalog).value))
      && run.verdict == (if w.profileWriteError.Some?
                         then Returned(ScriptWrite(ScriptErrorPrefix + w.profileWriteError.value))
                         else Completed)
      && run.commands == A.Commands(A.Extractions(run.fetched.value, w.acquire)) +
                         [NpmInstall(A.LibraryPath(w.acquire.tempDir))]
      && PatchEntryPoint(env, file).Success? && run.entryFile == PatchEntryPoint(env, file).value
  {
    match C.Resolve(env.catalog)
    case Failure(e) => HookRun(Swallowed(Extraction(e)), file, w.paths, None, [], None)
    case Success(creds) =>
      match C.Validate(creds)
      case Some(f) => HookRun(Returned(Invalid(f)), file, w.paths, None, [], None)
      case None => Provision(env, w, file, creds)
  }

  /** `AfterCompile`. */
  function AfterCompile(env: Env, w: World): (run: HookRun)
    requires C.WellFormed(env.catalog)
    ensures run.verdict.Swallowed? && run.verdict.cause.FirstPatch? <==> FirstPatchFails(env, w)
    ensures FirstPatchFails(env, w) ==>
      run.verdict == Swallowed(FirstPatch(R.Prepend(w.entryFile, SeekerRequireCode).error)) &&
      run.entryFile == w.entryFile
    ensures run.verdict.Swallowed? && run.verdict.cause.Extraction? <==>
      !FirstPatchFails(env, w) && C.Resolve(env.catalog).Failure?
    ensures run.verdict.Returned? && run.verdict.error.Invalid? <==>
      !FirstPatchFails(env, w) && C.Resolve(env.catalog).Success? &&
      C.Validate(C.Resolve(env.catalog).value).Some?
    ensures run.verdict.Returned? && run.verdict.error.Invalid? ==>
      run.verdict.error.field == C.Validate(C.Resolve(env.catalog).value).value
    ensures run.fetched.Some? <==>
      !FirstPatchFails(env, w) && C.Resolve(env.catalog).Success? &&
      C.Validate(C.Resolve(env.catalog).value).None?
    ensures run.fetched.Some? ==> (run.fetched.value == A.Direct <==> env.directDownload != "")
    ensures run.fetched.None? ==> run.paths == w.paths && run.commands == [] && run.profileScript.None?
    ensures !(run.verdict.Returned? && run.verdict.error.PatchFailed?)
    ensures run.profileScript.Some? ==>
      run.profileScript.value == (EnvScriptName, EnvScriptBody(C.Resolve(env.catalog).value))
    ensures run.profileScript.Some? ==>
      var once := PatchEntryPoint(env, w.entryFile);
      once.Success? && PatchEntryPoint(env, once.value).Success? &&
      run.entryFile == PatchEntryPoint(env, once.value).value
    ensures run.fetched.Some? ==>
      (run.profileScript.Some? <==> A.Acquire(run.fetched.value, w.acquire, w.paths).result.Success?)
    ensures run.fetched.Some? && run.profileScript.None? ==>
      && run.verdict == Returned(Acquisition(A.Acquire(run.fetched.value, w.acquire, w.paths).result.error))
      && run.commands == A.Acquire(run.fetched.value, w.acquire, w.paths).commands
    ensures (run.verdict.Swallowed? && run.verdict.cause.Extraction?) ||
            (run.verdict.Returned? && (run.verdict.error.Invalid? || run.verdict.error.Acquisition?)) ==>
      PatchEntryPoint(env, w.entryFile).Success? && run.entryFile == PatchEntryPoint(env, w.entryFile).value
    ensures run.profileScript.Some? ==>
      run.verdict == (if w.profileWriteError.Some?
                      then Returned(ScriptWrite(ScriptErrorPrefix + w.profileWriteError.value))
                      else Completed)
    ensures run.fetched.Some? ==> run.paths == A.Acquire(run.fetched.value, w.acquire, w.paths).paths
    ensures run.profileScript.Some? ==>
      run.commands == A.Commands(A.Extractions(run.fetched.value, w.acquire)) +
                      [NpmInstall(A.LibraryPath(w.acquire.tempDir))]
  {
    match PatchEntryPoint(env, w.entryFile)
    case Failure(e) =>
      HookRun(Swallowed(FirstPatch(e)), w.entryFile, w.paths, None, [], None)
    case Success(file) => Proceed(env, w, file)
  }

  /** With an entry point configured and a successful acquisition, the entry
      point is patched before and after acquisition, so the require line ends
      up in the file twice, ahead of the original lines. */
  lemma EntryPatchedTwice(env: Env, w: World)
    requires C.WellFormed(env.catalog)
    requires env.entryPointPath != "" && w.entryFile.Some?
    requires forall l | l in R.ReadLines(w.entryFile.value.content) :: R.CleanLine(l)
    ensures AfterCompile(env, w).profileScript.Some? ==>
      && AfterCompile(env, w).entryFile.Some?
      && R.ReadLines(AfterCompile(env, w).entryFile.value.content)
         == [SeekerRequireCode, SeekerRequireCode] + R.ReadLines(w.entryFile.value.content)
  {
    if AfterCompile(env, w).profileScript.Some? {
      RequireCodeIsClean();
      R.PrependTwice(w.entryFile, SeekerRequireCode);
    }
  }

  /** The outcome of `npm install` is never inspected: the run is the same
      whether it succeeded or not. */
  lemma NpmOutcomeIgnored(env: Env, w: World, ok: bool)
    requires C.WellFormed(env.catalog)
    ensures AfterCompile(env, w.(npmOk := ok)) == AfterCompile(env, w)
  {
  }

  lemma RequireCodeIsClean()
    ensures R.CleanLine(SeekerRequireCode)
  {
  }
}

=== FILE: keyword.dfy ===
/** The keyword test `isSeekerRelated`: a descriptor is related to the Seeker
    service when the unanchored pattern `.*[sS][eE][eE][kK][eE][rR].*` matches
    it, which is the same as "seeker" occurring in it in any ASCII letter case. */
module Keyword {
  import Text

  const Needle: string := "seeker"

  /** The character class `[xX]` of the pattern, for a lower-case letter `x`. */
  predicate ClassMatches(c: char, x: char) {
    c == x || c == Text.UpperChar(x)
  }

  /** The six character classes of the pattern match `s` at index `i`. */
  predicate PatternAt(s: string, i: nat) {
    i + |Needle| <= |s| &&
    forall k :: 0 <= k < |Needle| ==> ClassMatches(s[i + k], Needle[k])
  }

  /** A match of the character classes is exactly an occurrence of "seeker"
      in the lower-cased descriptor. */
  lemma PatternAtIsLowerOccurrence(s: string, i: nat)
    ensures PatternAt(s, i) <==> Text.OccursAt(Text.Lower(s), Needle, i)
  {
    var low := Text.Lower(s);
    if i + |Needle| <= |s| {
      forall k | 0 <= k < |Needle|
        ensures ClassMatches(s[i + k], Needle[k]) <==> low[i + k] == Needle[k]
      {
        assert 'a' <= Needle[k] <= 'z';
      }
      if PatternAt(s, i) {
        assert low[i..i + |Needle|] == Needle;
      }
      if Text.OccursAt(low, Needle, i) {
        forall k | 0 <= k < |Needle| ensures low[i + k] == Needle[k] {
          assert low[i..i + |Needle|][k] == low[i + k];
        }
      }
    }
  }

  /** The unanchored regular-expression search, trying start positions from
      `i` onwards: it finds a match exactly where a left-to-right search for
      "seeker" in the lower-cased descriptor succeeds. */
  function MatchFrom(s: string, i: nat): (r: bool)
    ensures r == Text.ContainsFrom(Text.Lower(s), Needle, i)
    decreases |s| - i
  {
    PatternAtIsLowerOccurrence(s, i);
    if |s| < i + |Needle| then false
    else PatternAt(s, i) || MatchFrom(s, i + 1)
  }

  /** One descriptor matches `.*[sS][eE][eE][kK][eE][rR].*`: a case-insensitive
      (ASCII) substring test for "seeker". */
  function Matches(descriptor: string): (r: bool)
    ensures r == Text.Contains(Text.Lower(descriptor), Needle)
  {
    MatchFrom(descriptor, 0)
  }

  /** `isSeekerRelated(ds...)`: folds `related || matches(d)` over the
      descriptors, so it holds iff some descriptor matches; no descriptors give
      false. */
  function IsSeekerRelated(ds: seq<string>): (r: bool)
    ensures r <==> exists j :: 0 <= j < |ds| && Matches(ds[j])
    ensures |ds| == 0 ==> !r
  {
    if |ds| == 0 then false
    else IsSeekerRelated(ds[..|ds| - 1]) || Matches(ds[|ds| - 1])
  }
}

=== FILE: record.dfy ===
/** `Record.readLines` and `Record.Prepend`: the entry-point patcher. A file is
    its text plus whether it can be opened for reading and for writing; the
    text is read line by line the way `bufio.ScanLines` splits it. */
module Record {
  import opened Wrappers

  /** Index of the first '\n' in `s`, or `|s|` when there is none. */
  function NewlineIndex(s: string): (i: nat)
    ensures i <= |s|
    ensures i < |s| ==> s[i] == '\n'
    ensures forall j :: 0 <= j < i ==> s[j] != '\n'
  {
    if |s| == 0 || s[0] == '\n' then 0 else 1 + NewlineIndex(s[1..])
  }

  /** `bufio.ScanLines` removes one carriage return at the end of a token. */
  function DropCR(t: string): (r: string)
    ensures |t| > 0 && t[|t| - 1] == '\r' ==> t == r + "\r"
    ensures !(|t| > 0 && t[|t| - 1] == '\r') ==> r == t
  {
    if |t| > 0 && t[|t| - 1] == '\r' then t[..|t| - 1] else t
  }

  /** `readLines`: the tokens of `bufio.ScanLines` (split at '\n', one trailing
      '\r' dropped, a last line without '\n' still counted), keeping only the
      non-empty ones, in file order. */
  function ReadLines(s: string): (r: seq<string>)
    ensures forall j :: 0 <= j < |r| ==> r[j] != "" && '\n' !in r[j]
    decreases |s|
  {
    if |s| == 0 then []
    else
      var i := NewlineIndex(s);
      var token := DropCR(s[..i]);
      var rest := if i < |s| then s[i + 1..] else "";
      (if token != "" then [token] else []) + ReadLines(rest)
  }

  /** Each line followed by "\n", as `Prepend` writes them. */
  function Terminated(lines: seq<string>): string {
    if |lines| == 0 then "" else lines[0] + "\n" + Terminated(lines[1..])
  }

  /** The text `Prepend` writes: the new line, then the lines read from the
      file, each terminated by "\n". */
  function Render(line: string, lines: seq<string>): string {
    Terminated([line] + lines)
  }

  lemma TerminatedCons(l: string, rest: seq<string>)
    ensures Terminated([l] + rest) == l + "\n" + Terminated(rest)
  {
    assert ([l] + rest)[1..] == rest;
  }

  /** A line that reads back as itself: non-empty, no '\n', no trailing '\r'. */
  predicate CleanLine(l: string) {
    l != "" && '\n' !in l && l[|l| - 1] != '\r'
  }

  lemma NewlineIndexOfLine(l: string, tail: string)
    requires '\n' !in l
    ensures NewlineIndex(l + "\n" + tail) == |l|
  {
    var s := l + "\n" + tail;
    assert s[|l|] == '\n';
    assert forall j :: 0 <= j < |l| ==> s[j] == l[j];
  }

  /** A clean line followed by '\n' is read as itself, then reading goes on
      after it. */
  lemma ReadLinesCons(l: string, tail: string)
    requires CleanLine(l)
    ensures ReadLines(l + "\n" + tail) == [l] + ReadLines(tail)
  {
    var s := l + "\n" + tail;
    NewlineIndexOfLine(l, tail);
    assert s[..|l|] == l;
    assert s[|l| + 1..] == tail;
  }

  /** The scanner strips exactly the one '\r' put after a token. */
  lemma DropCRAfter(l: string)
    ensures DropCR(l + "\r") == l
  {
    var t := l + "\r";
    var r := DropCR(t);
    assert t[|t| - 1] == '\r';
    assert t == r + "\r";
    assert |r| == |l|;
    assert r == t[..|l|] == l;
  }

  /** A clean line ending in "\r\n" reads as the line without its '\r', then
      reading goes on after it. */
  lemma ReadLinesCRLF(l: string, tail: string)
    requires CleanLine(l)
    ensures ReadLines(l + "\r\n" + tail) == [l] + ReadLines(tail)
  {
    var lr := l + "\r";
    var s := lr + "\n" + tail;
    assert l + "\r\n" + tail == s;
    assert '\n' !in lr by {
      assert forall k :: 0 <= k < |l| ==> lr[k] == l[k];
    }
    NewlineIndexOfLine(lr, tail);
    assert s[..|lr|] == lr;
    assert s[|lr| + 1..] == tail;
    DropCRAfter(l);
    assert ReadLines(s) == [l] + ReadLines(tail);
  }

  /** A clean last line without a terminating '\n' is still read. */
  lemma ReadLastLine(l: string)
    requires CleanLine(l)
    ensures ReadLines(l) == [l]
  {
    assert NewlineIndex(l) == |l|;
    assert l[..|l|] == l;
  }

  /** Lines written by `Terminated` read back unchanged. */
  lemma {:induction false} ReadTerminated(lines: seq<string>)
    requires forall j :: 0 <= j < |lines| ==> CleanLine(lines[j])
    ensures ReadLines(Terminated(lines)) == lines
  {
    if |lines| > 0 {
      var l, rest := lines[0], lines[1..];
      var t := Terminated(rest);
      assert Terminated(lines) == l + "\n" + t;
      CleanTail(lines);
      ReadTerminated(rest);
      ReadLinesCons(l, t);
      assert lines == [l] + rest;
    }
  }

  lemma CleanTail(lines: seq<string>)
    requires |lines| > 0 && forall j :: 0 <= j < |lines| ==> CleanLine(lines[j])
    ensures CleanLine(lines[0]) && forall j :: 0 <= j < |lines[1..]| ==> CleanLine(lines[1..][j])
  {
    forall j | 0 <= j < |lines[1..]| ensures CleanLine(lines[1..][j]) {
      assert lines[1..][j] == lines[j + 1];
    }
  }

  /** Writing `written` over `previous` from the start without truncating: the old
      bytes past the end of the new text survive. */
  function Overwrite(previous: string, written: string): (r: string)
    ensures |r| == if |written| >= |previous| then |written| else |previous|
    ensures r[..|written|] == written
    ensures |written| < |previous| ==> r[|written|..] == previous[|written|..]
  {
    if |written| >= |previous| then written else written + previous[|written|..]
  }

  datatype EntryFile = EntryFile(content: string, readable: bool, writable: bool)

  datatype PrependError = TargetNotFound | OpenForReadFailed | OpenForWriteFailed

  /** `Record.Prepend` as written: the file is reopened with `O_WRONLY` and no
      `O_TRUNC`, so the new text overwrites the old one in place. */
  function PrependAsWritten(file: Option<EntryFile>, line: string): (r: Result<EntryFile, PrependError>)
    ensures file.None? ==> r == Failure(TargetNotFound)
    ensures file.Some? && !file.value.readable ==> r == Failure(OpenForReadFailed)
    ensures file.Some? && file.value.readable && !file.value.writable ==> r == Failure(OpenForWriteFailed)
    ensures file.Some? && file.value.readable && file.value.writable ==> r.Success?
    ensures r.Success? ==>
      var previous, w := file.value.content, Render(line, ReadLines(file.value.content));
      && |r.value.content| == (if |w| >= |previous| then |w| else |previous|)
      && r.value.content[..|w|] == w
      && (|w| < |previous| ==> r.value.content[|w|..] == previous[|w|..])
      && r.value.readable == file.value.readable && r.value.writable == file.value.writable
  {
    match file
    case None => Failure(TargetNotFound)
    case Some(f) =>
      if !f.readable then Failure(OpenForReadFailed)
      else if !f.writable then Failure(OpenForWriteFailed)
      else Success(f.(content := Overwrite(f.content, Render(line, ReadLines(f.content)))))
  }

  /** `Record.Prepend` with the file truncated before writing: its text becomes
      exactly the new line followed by the non-empty original lines. */
  function Prepend(file: Option<EntryFile>, line: string): (r: Result<EntryFile, PrependError>)
    ensures file.None? ==> r == Failure(TargetNotFound)
    ensures file.Some? && !file.value.readable ==> r == Failure(OpenForReadFailed)
    ensures file.Some? && file.value.readable && !file.value.writable ==> r == Failure(OpenForWriteFailed)
    ensures file.Some? && file.value.readable && file.value.writable ==> r.Success?
    ensures r.Success? ==>
      r.value.content == line + "\n" + Terminated(ReadLines(file.value.content)) &&
      r.value.readable == file.value.readable && r.value.writable == file.value.writable
  {
    match file
    case None => Failure(TargetNotFound)
    case Some(f) =>
      if !f.readable then Failure(OpenForReadFailed)
      else if !f.writable then Failure(OpenForWriteFailed)
      else Success(f.(content := Render(line, ReadLines(f.content))))
  }

  /** The patched file reads back as the new line followed by the old lines. */
  lemma PrependReadsBack(file: Option<EntryFile>, line: string)
    requires Prepend(file, line).Success?
    requires CleanLine(line)
    requires forall l | l in ReadLines(file.value.content) :: CleanLine(l)
    ensures ReadLines(Prepend(file, line).value.content) == [line] + ReadLines(file.value.content)
  {
    var lines := [line] + ReadLines(file.value.content);
    forall j | 0 <= j < |lines| ensures CleanLine(lines[j]) {
      if j > 0 {
        assert lines[j] in ReadLines(file.value.content);
      }
    }
    ReadTerminated(lines);
  }

  /** `Prepend` is not idempotent: applied twice it inserts the line twice. */
  lemma PrependTwice(file: Option<EntryFile>, line: string)
    requires Prepend(file, line).Success?
    requires CleanLine(line)
    requires forall l | l in ReadLines(file.value.content) :: CleanLine(l)
    ensures var once := Prepend(file, line).value;
      && Prepend(Some(once), line).Success?
      && ReadLines(Prepend(Some(once), line).value.content)
         == [line, line] + ReadLines(file.value.content)
  {
    var original := ReadLines(file.value.content);
    var once := Prepend(file, line).value;
    PrependReadsBack(file, line);
    assert ReadLines(once.content) == [line] + original;
    forall l | l in ReadLines(once.content) ensures CleanLine(l) {
      if l != line {
        assert l in original;
      }
    }
    assert once.readable && once.writable;
    PrependReadsBack(Some(once), line);
    assert [line] + ([line] + original) == [line, line] + original;
  }

  /** When the new text is at least as long as the old one, nothing of the old
      text survives and the code as written agrees with the truncating write. */
  lemma AsWrittenAgreesWhenGrowing(file: Option<EntryFile>, line: string)
    requires file.Some? ==> |Render(line, ReadLines(file.value.content))| >= |file.value.content|
    ensures PrependAsWritten(file, line) == Prepend(file, line)
  {
  }

  /** A blank line contributes nothing to what is read. */
  lemma ReadLinesBlank(s: string)
    ensures ReadLines("\n" + s) == ReadLines(s)
  {
    var t := "\n" + s;
    assert NewlineIndex(t) == 0;
    assert t[1..] == s;
  }

  /** An entry file of four blank lines followed by one short line. */
  const BlankHeavy: string := "\n\n\n\nab\n"

  /** However many empty lines a text starts with, it reads as the text after them. */
  lemma {:induction false} ReadAfterBlanks(t: string, n: nat)
    requires n <= |t| && forall k :: 0 <= k < n ==> t[k] == '\n'
    ensures ReadLines(t) == ReadLines(t[n..])
  {
    if n > 0 {
      assert NewlineIndex(t) == 0;
      assert ReadLines(t) == ReadLines(t[1..]);
      ReadAfterBlanks(t[1..], n - 1);
      assert t[1..][n - 1..] == t[n..];
    }
  }

  lemma ReadAb()
    ensures ReadLines("ab\n") == ["ab"]
  {
    assert "ab" + "\n" + "" == "ab\n";
    assert CleanLine("ab");
    ReadLinesCons("ab", "");
    assert ReadLines("") == [];
  }

  lemma ReadBlankHeavy()
    ensures ReadLines(BlankHeavy) == ["ab"]
  {
    ReadAfterBlanks(BlankHeavy, 4);
    assert BlankHeavy[4..] == "ab\n";
    ReadAb();
  }

  lemma RenderOnBlankHeavy()
    ensures Render("X", ["ab"]) == "X\nab\n"
  {
    TerminatedCons("ab", []);
    TerminatedCons("X", ["ab"]);
    assert Terminated(["X", "ab"]) == "X\nab\n";
  }

  lemma OverwriteBlankHeavy()
    ensures Overwrite(BlankHeavy, "X\nab\n") == "X\nab\nb\n"
  {
    assert BlankHeavy[5..] == "b\n";
  }

  lemma ReadStaleTail()
    ensures ReadLines("X\nab\nb\n") == ["X", "ab", "b"]
  {
    TerminatedCons("b", []);
    TerminatedCons("ab", ["b"]);
    TerminatedCons("X", ["ab", "b"]);
    assert ["X", "ab", "b"] == ["X"] + (["ab"] + ["b"]);
    assert Terminated(["X", "ab", "b"]) == "X\nab\nb\n";
    ReadTerminated(["X", "ab", "b"]);
  }

  lemma ReadFixed()
    ensures ReadLines("X\nab\n") == ["X", "ab"]
  {
    TerminatedCons("ab", []);
    TerminatedCons("X", ["ab"]);
    assert Terminated(["X", "ab"]) == "X\nab\n";
    ReadTerminated(["X", "ab"]);
  }

  lemma AsWrittenOnBlankHeavy()
    ensures PrependAsWritten(Some(EntryFile(BlankHeavy, true, true)), "X")
         == Success(EntryFile("X\nab\nb\n", true, true))
  {
    ReadBlankHeavy();
    RenderOnBlankHeavy();
    OverwriteBlankHeavy();
  }

  lemma TruncatingOnBlankHeavy()
    ensures Prepend(Some(EntryFile(BlankHeavy, true, true)), "X") == Success(EntryFile("X\nab\n", true, true))
  {
    ReadBlankHeavy();
    RenderOnBlankHeavy();
  }

  /** On that file the code as written leaves the old tail "b\n" behind,
      which reads back as an extra line, while the truncating write gives the
      intended text. */
  lemma StaleTailCounterexample()
    ensures var f := EntryFile(BlankHeavy, true, true);
      && PrependAsWritten(Some(f), "X") == Success(f.(content := "X\nab\nb\n"))
      && Prepend(Some(f), "X") == Success(f.(content := "X\nab\n"))
      && ReadLines(PrependAsWritten(Some(f), "X").value.content) == ["X", "ab", "b"]
      && ReadLines(Prepend(Some(f), "X").value.content) == ["X", "ab"]
  {
    AsWrittenOnBlankHeavy();
    TruncatingOnBlankHeavy();
    ReadStaleTail();
    ReadFixed();
  }
}

=== FILE: scenarios.dfy ===
/** The two end-to-end cases of the hook's test suite, replayed on the model:
    a user-provided Seeker binding, and a broker-provisioned one next to an
    unrelated `mysql` binding. Acquisition is taken to succeed in both. */
module Scenarios {
  import opened Wrappers
  import Text
  import Keyword
  import C = Credentials
  import A = Acquisition
  import Hook

  const TestCredentials: C.SeekerCredentials :=
    C.SeekerCredentials("localhost", "9911", "http://10.120.8.113:8082")

  /** The script text the test expects, one line per piece. */
  const ExpectedScript: string :=
    "\n" + "export SEEKER_SENSOR_HOST=localhost" + "\n" + "export SEEKER_SENSOR_HTTP_PORT=9911"

  /** The binding of the user-provided test case. */
  const UserProvidedBinding: C.Service :=
    C.Service("seeker_service_v2", "user-provided", "seeker_service_v2", TestCredentials)

  /** The two bindings of the broker test case. */
  const BrokerBinding: C.Service :=
    C.Service("seeker_instace", "seeker-security-service", "seeker_instace", TestCredentials)
  const MysqlBinding: C.Service := C.Service("mysql", "", "", C.Zero)

  const BrokerKey: string := "seeker-security-service"

  const BrokerMap: map<string, seq<C.Service>> := map[BrokerKey := [BrokerBinding], "2" := [MysqlBinding]]

  /** An acquisition in which every step succeeds and the extraction leaves
      the library in place. */
  function SucceedingWorld(tempDir: A.Path): Hook.World {
    var lib := {A.LibraryPath(tempDir)};
    Hook.World(None, {}, A.AcquireEnv(tempDir, true, true, A.Response(200, A.Written),
                                       A.Unzip(true, lib), A.Unzip(true, lib), false),
               true, None)
  }

  lemma SeekerNamesMatch()
    ensures Keyword.Matches("seeker_service_v2")
    ensures Keyword.Matches("seeker_instace")
  {
    assert Keyword.PatternAt("seeker_service_v2", 0);
    assert Keyword.PatternAt("seeker_instace", 0);
  }

  lemma BindingsRelated()
    ensures C.Related(UserProvidedBinding) && C.Related(BrokerBinding) && !C.Related(MysqlBinding)
  {
    SeekerNamesMatch();
    var ds := [MysqlBinding.name, MysqlBinding.serviceLabel, MysqlBinding.instanceName];
    assert forall j :: 0 <= j < |ds| ==> |ds[j]| < |Keyword.Needle|;
    assert !Keyword.IsSeekerRelated(ds);
  }

  lemma BrokerMatchSet()
    ensures C.MatchSet(BrokerMap) == {(BrokerKey, 0)}
  {
    BindingsRelated();
    assert (BrokerKey, 0) in C.MatchSet(BrokerMap);
    forall p | p in C.MatchSet(BrokerMap) ensures p == (BrokerKey, 0) {
      assert p.0 == BrokerKey || p.0 == "2";
    }
  }

  lemma TestCredentialsValid()
    ensures C.Validate(TestCredentials).None?
    ensures Hook.EnvScriptBody(TestCredentials) == ExpectedScript
  {
    var host := Hook.HostExport + "localhost";
    var port := Hook.PortExport + "9911";
    assert host == "export SEEKER_SENSOR_HOST=localhost";
    assert port == "export SEEKER_SENSOR_HTTP_PORT=9911";
  }

  lemma WorldAcquires(tempDir: A.Path, mode: A.Mode)
    ensures A.Acquire(mode, SucceedingWorld(tempDir).acquire, {}).result.Success?
  {
  }

  /** With the entry point unset, a resolved and valid credential and an
      acquisition that succeeds, the hook completes and writes the profile
      script for that credential. */
  lemma HookCompletes(env: Hook.Env, w: Hook.World, creds: C.SeekerCredentials)
    requires C.WellFormed(env.catalog) && env.entryPointPath == "" && w.profileWriteError.None?
    ensures (&& C.Resolve(env.catalog) == Success(creds)
             && C.Validate(creds).None?
             && A.Acquire(if env.directDownload != "" then A.Direct else A.WithinSensor, w.acquire, w.paths).result.Success?)
      ==> (&& Hook.AfterCompile(env, w).verdict == Hook.Completed
           && Hook.AfterCompile(env, w).profileScript == Some((Hook.EnvScriptName, Hook.EnvScriptBody(creds))))
  {
  }

  function UserProvidedCatalog(raw: string): C.Catalog {
    C.Catalog(raw, C.Decoded([UserProvidedBinding]),
              C.Decoded(map["user-provided" := [UserProvidedBinding]]), ["user-provided"])
  }

  function BrokerCatalog(raw: string, order: seq<string>): C.Catalog {
    C.Catalog(raw, C.Decoded([]), C.Decoded(BrokerMap), order)
  }

  lemma UserProvidedResolves(raw: string)
    requires Text.Contains(raw, C.UserProvidedMarker)
    ensures C.WellFormed(UserProvidedCatalog(raw))
    ensures C.Resolve(UserProvidedCatalog(raw)) == Success(TestCredentials)
  {
    BindingsRelated();
    assert C.MatchIndices([UserProvidedBinding]) == {0};
  }

  lemma BrokerResolves(raw: string, order: seq<string>)
    requires !Text.Contains(raw, C.UserProvidedMarker)
    requires order == [BrokerKey, "2"] || order == ["2", BrokerKey]
    ensures C.WellFormed(BrokerCatalog(raw, order))
    ensures C.Resolve(BrokerCatalog(raw, order)) == Success(TestCredentials)
  {
    BrokerMatchSet();
  }

  /** User-provided case: the only binding matches, its credential is used and
      the profile script has the expected text. */
  lemma UserProvidedCase(raw: string, tempDir: A.Path)
    requires Text.Contains(raw, C.UserProvidedMarker)
    ensures C.WellFormed(UserProvidedCatalog(raw))
    ensures Hook.AfterCompile(Hook.Env("", "", UserProvidedCatalog(raw)), SucceedingWorld(tempDir)).verdict == Hook.Completed
    ensures Hook.AfterCompile(Hook.Env("", "", UserProvidedCatalog(raw)), SucceedingWorld(tempDir)).profileScript
         == Some((Hook.EnvScriptName, ExpectedScript))
  {
    UserProvidedResolves(raw);
    TestCredentialsValid();
    WorldAcquires(tempDir, A.WithinSensor);
    HookCompletes(Hook.Env("", "", UserProvidedCatalog(raw)), SucceedingWorld(tempDir), TestCredentials);
  }

  /** Broker case: the Seeker binding is found under its key and `mysql` is
      ignored, in whichever order the keys are visited. */
  lemma BrokerCase(raw: string, order: seq<string>, tempDir: A.Path)
    requires !Text.Contains(raw, C.UserProvidedMarker)
    requires order == [BrokerKey, "2"] || order == ["2", BrokerKey]
    ensures C.WellFormed(BrokerCatalog(raw, order))
    ensures Hook.AfterCompile(Hook.Env("", "", BrokerCatalog(raw, order)), SucceedingWorld(tempDir)).verdict == Hook.Completed
    ensures Hook.AfterCompile(Hook.Env("", "", BrokerCatalog(raw, order)), SucceedingWorld(tempDir)).profileScript
         == Some((Hook.EnvScriptName, ExpectedScript))
  {
    BrokerResolves(raw, order);
    TestCredentialsValid();
    WorldAcquires(tempDir, A.WithinSensor);
    HookCompletes(Hook.Env("", "", BrokerCatalog(raw, order)), SucceedingWorld(tempDir), TestCredentials);
  }
}

=== FILE: selection.dfy ===
/** The exactly-one rule shared by both credential extractors, stated for any
    match predicate: the extractors collect every binding that matches, and
    only a single match is accepted. */
module Selection {
  import opened Wrappers

  /** Positions of the elements of `xs` that satisfy `p`. */
  function Positions<T>(xs: seq<T>, p: T -> bool): set<int> {
    set i | 0 <= i < |xs| && p(xs[i])
  }

  lemma PositionsSnoc<T>(xs: seq<T>, x: T, p: T -> bool)
    ensures Positions(xs + [x], p) == Positions(xs, p) + (if p(x) then {|xs|} else {})
  {
    var l := xs + [x];
    forall i ensures i in Positions(l, p) <==> i in Positions(xs, p) + (if p(x) then {|xs|} else {}) {
      if 0 <= i < |xs| {
        assert l[i] == xs[i];
      }
    }
  }

  /** The elements that satisfy `p`, in their original order: the slice of
      detected bindings an extractor builds with `append`. */
  function Filter<T>(xs: seq<T>, p: T -> bool): (r: seq<T>)
    ensures |r| == |Positions(xs, p)|
    ensures forall j :: 0 <= j < |r| ==> exists i :: i in Positions(xs, p) && r[j] == xs[i]
  {
    if |xs| == 0 then []
    else
      var init, x := xs[..|xs| - 1], xs[|xs| - 1];
      assert xs == init + [x];
      PositionsSnoc(init, x, p);
      Filter(init, p) + (if p(x) then [x] else [])
  }

  lemma {:induction false} FilterAppend<T>(a: seq<T>, b: seq<T>, p: T -> bool)
    ensures Filter(a + b, p) == Filter(a, p) + Filter(b, p)
    decreases |b|
  {
    if |b| == 0 {
      assert a + b == a;
    } else {
      var init, x := b[..|b| - 1], b[|b| - 1];
      var ab := a + b;
      assert ab[..|ab| - 1] == a + init;
      assert ab[|ab| - 1] == x;
      FilterAppend(a, init, p);
    }
  }

  lemma SingletonSet<T>(s: set<T>, x: T)
    requires |s| == 1 && x in s
    ensures s == {x}
  {
    assert |s - {x}| == 0;
  }

  lemma FilterSingle<T>(xs: seq<T>, p: T -> bool)
    requires |Filter(xs, p)| == 1
    ensures exists i :: Positions(xs, p) == {i} && Filter(xs, p)[0] == xs[i]
  {
    var i :| i in Positions(xs, p) && Filter(xs, p)[0] == xs[i];
    SingletonSet(Positions(xs, p), i);
  }

  /** The exactly-one rule: the only element satisfying `p`, or `None` when no
      element or several do. */
  function SelectOne<T>(xs: seq<T>, p: T -> bool): (r: Option<T>)
    ensures r.None? <==> |Positions(xs, p)| != 1
    ensures r.Some? ==> exists i :: Positions(xs, p) == {i} && r.value == xs[i]
  {
    var detected := Filter(xs, p);
    if |detected| == 1 then
      FilterSingle(xs, p);
      Some(detected[0])
    else None
  }

  /** Every value of the map, key after key in the given iteration order. */
  function Flatten<K, T>(m: map<K, seq<T>>, order: seq<K>): seq<T>
    requires forall k :: k in order ==> k in m
  {
    if |order| == 0 then [] else m[order[0]] + Flatten(m, order[1..])
  }

  /** `order` visits every key of `m` exactly once, as a range loop over a map
      does. */
  predicate KeyOrder<K, T>(m: map<K, seq<T>>, order: seq<K>) {
    && (forall k :: k in m ==> k in order)
    && (forall k :: k in order ==> k in m)
    && (forall i, j :: 0 <= i < j < |order| ==> order[i] != order[j])
  }

  /** The elements satisfying `p` under the keys in `keys`, as (key, position)
      pairs; with `keys == m.Keys` this is the order-independent match set. */
  function PairsOver<K, T>(m: map<K, seq<T>>, keys: set<K>, p: T -> bool): set<(K, int)> {
    set k, i | k in keys && k in m && 0 <= i < |m[k]| && p(m[k][i]) :: (k, i)
  }

  function SetOf<K>(order: seq<K>): set<K> {
    set k | k in order
  }

  /** Positions paired with the key they were found under. */
  function Tagged<K(==)>(k: K, s: set<int>): set<(K, int)> {
    set i | i in s :: (k, i)
  }

  /** Tagging a set grown by one fresh position grows the tagged set by one
      fresh pair. */
  lemma TaggedAdd<K>(k: K, s: set<int>, n: int)
    requires n !in s
    ensures (k, n) !in Tagged(k, s)
    ensures Tagged(k, s + {n}) == Tagged(k, s) + {(k, n)}
  {
  }

  lemma {:induction false} TaggedPositionsCard<K, T>(k: K, xs: seq<T>, p: T -> bool)
    ensures |Tagged(k, Positions(xs, p))| == |Positions(xs, p)|
    decreases |xs|
  {
    if |xs| == 0 {
      assert Positions(xs, p) == {};
      assert Tagged(k, Positions(xs, p)) == {};
    } else {
      var init, x := xs[..|xs| - 1], xs[|xs| - 1];
      assert xs == init + [x];
      PositionsSnoc(init, x, p);
      TaggedPositionsCard(k, init, p);
      var s0 := Positions(init, p);
      if p(x) {
        assert |init| !in s0;
        TaggedAdd(k, s0, |init|);
      }
    }
  }

  lemma PairsOverCons<K, T>(m: map<K, seq<T>>, k: K, keys: set<K>, p: T -> bool)
    requires k in m && k !in keys
    ensures |PairsOver(m, {k} + keys, p)| == |Positions(m[k], p)| + |PairsOver(m, keys, p)|
  {
    var tagged := Tagged(k, Positions(m[k], p));
    assert PairsOver(m, {k} + keys, p) == tagged + PairsOver(m, keys, p);
    assert tagged !! PairsOver(m, keys, p);
    TaggedPositionsCard(k, m[k], p);
  }

  /** Flattening in an order without repeated keys finds as many matches as
      there are matching (key, position) pairs. */
  lemma {:induction false} FlattenCount<K, T>(m: map<K, seq<T>>, order: seq<K>, p: T -> bool)
    requires forall k :: k in order ==> k in m
    requires forall i, j :: 0 <= i < j < |order| ==> order[i] != order[j]
    ensures |Positions(Flatten(m, order), p)| == |PairsOver(m, SetOf(order), p)|
  {
    if |order| == 0 {
      assert PairsOver(m, SetOf(order), p) == {};
    } else {
      var k, rest := order[0], order[1..];
      assert SetOf(order) == {k} + SetOf(rest);
      assert k !in SetOf(rest) by {
        forall j | 0 <= j < |rest| ensures rest[j] != k {
          assert rest[j] == order[j + 1];
        }
      }
      FlattenCount(m, rest, p);
      FilterAppend(m[k], Flatten(m, rest), p);
      PairsOverCons(m, k, SetOf(rest), p);
    }
  }

  /** Every match found by flattening is an element of the match set. */
  lemma {:induction false} FlattenMember<K, T>(m: map<K, seq<T>>, order: seq<K>, p: T -> bool, i: int)
    requires forall k :: k in order ==> k in m
    requires i in Positions(Flatten(m, order), p)
    ensures exists k, j :: (k, j) in PairsOver(m, SetOf(order), p) && Flatten(m, order)[i] == m[k][j]
  {
    var k, rest := order[0], order[1..];
    var f := Flatten(m, order);
    if i < |m[k]| {
      assert f[i] == m[k][i];
      assert (k, i) in PairsOver(m, SetOf(order), p);
    } else {
      var i' := i - |m[k]|;
      assert f[i] == Flatten(m, rest)[i'];
      assert i' in Positions(Flatten(m, rest), p);
      FlattenMember(m, rest, p, i');
      var k', j :| (k', j) in PairsOver(m, SetOf(rest), p) && Flatten(m, rest)[i'] == m[k'][j];
      assert (k', j) in PairsOver(m, SetOf(order), p);
    }
  }

  /** The exactly-one rule over a map visited in any complete key order is the
      exactly-one rule over its order-independent match set. */
  lemma SelectOneOverMap<K, T>(m: map<K, seq<T>>, order: seq<K>, p: T -> bool)
    requires KeyOrder(m, order)
    ensures SelectOne(Flatten(m, order), p).None? <==> |PairsOver(m, m.Keys, p)| != 1
    ensures SelectOne(Flatten(m, order), p).Some? ==>
      exists k, j :: PairsOver(m, m.Keys, p) == {(k, j)} &&
        SelectOne(Flatten(m, order), p).value == m[k][j]
  {
    var f := Flatten(m, order);
    assert SetOf(order) == m.Keys;
    FlattenCount(m, order, p);
    var r := SelectOne(f, p);
    if r.Some? {
      var i :| Positions(f, p) == {i} && r.value == f[i];
      FlattenMember(m, order, p, i);
      var k, j :| (k, j) in PairsOver(m, m.Keys, p) && f[i] == m[k][j];
      SingletonSet(PairsOver(m, m.Keys, p), (k, j));
    }
  }
}

=== FILE: text.dfy ===
/** Plain string helpers: substring search (Go's `strings.Contains`) and ASCII
    lower-casing, used as reference definitions by the rest of the model. */
module Text {

  /** `sub` occurs in `s` starting at index `i`. */
  predicate OccursAt(s: string, sub: string, i: nat) {
    i + |sub| <= |s| && s[i..i + |sub|] == sub
  }

  /** Left-to-right search for `sub` in `s`, starting at index `i`. */
  function ContainsFrom(s: string, sub: string, i: nat): (r: bool)
    ensures r <==> exists j: nat :: i <= j && OccursAt(s, sub, j)
    decreases |s| - i
  {
    if |s| < i + |sub| then false
    else if OccursAt(s, sub, i) then true
    else ContainsFrom(s, sub, i + 1)
  }

  /** Go's `strings.Contains(s, sub)`: `sub` occurs somewhere in `s`. */
  function Contains(s: string, sub: string): (r: bool)
    ensures r <==> exists j: nat :: OccursAt(s, sub, j)
  {
    ContainsFrom(s, sub, 0)
  }

  /** Maps 'A'..'Z' to 'a'..'z' and leaves every other character alone. */
  function LowerChar(c: char): char {
    if 'A' <= c <= 'Z' then (c as int + 32) as char else c
  }

  /** Maps 'a'..'z' to 'A'..'Z' and leaves every other character alone. */
  function UpperChar(c: char): char {
    if 'a' <= c <= 'z' then (c as int - 32) as char else c
  }

  /** ASCII lower-casing of a whole string. */
  function Lower(s: string): (r: string)
    ensures |r| == |s|
    ensures forall i :: 0 <= i < |s| ==> r[i] == LowerChar(s[i])
  {
    seq(|s|, i requires 0 <= i < |s| => LowerChar(s[i]))
  }
}

=== FILE: wrappers.dfy ===
/** Failure-compatible result types shared by the model: Go's `(value, error)`
    pairs become `Result`, and an optional value becomes `Option`. */
module Wrappers {

  datatype Option<+T> = None | Some(value: T)

  datatype Result<+R, +E> = Success(value: R) | Failure(error: E)
}
